=== FILE: README.md ===
# Note editor: authentication boundary and client stores, in Dafny

This project models the sequential core of a note-editing web application
written in TypeScript:

- **the route gate** (`Middleware`, `middleware.dfy`). It runs in front of
  every page. It verifies the `token` cookie, fail-closed, and classifies the
  path: public-only ("/login", "/register") or login-required (every other
  path). It then passes the request through or redirects it to a same-origin
  "/" or "/login".
- **the user document model** (`UserModel`, `user_model.dfy`). This covers the
  schema's required fields, the unique indexes on email and username, and the
  pre-save hook that replaces a modified password by its bcrypt hash (cost 10).
- **the user resolvers** (`Resolvers`, `resolvers.dfy`). These are the lookups
  `users`, `userById`, `userByEmail` and `userByUsername`, and `createUser`.
  `createUser` rejects a taken email, then a taken username, and only then
  saves.
- **three client-side stores**: the toast queue (`ToastStore`), the
  logged-in user echo (`UserStore`) and the theme switch (`ThemeStore`).

Everything is immutable data and pure functions. Stored identities form a
`seq<Identity>` whose invariant `UniqueKeys` says that no two of them share
an id, an email or a username. Every save and every `createUser` preserves
it. JWT verification is abstract. A token is either a JWT signed with some key
and carrying optional "exp" and "nbf" claims (`Jwt`) or any other string
(`Garbage`). It verifies exactly when it is a JWT signed with the configured
secret whose "exp", if present, lies in the future and whose "nbf", if
present, does not. bcrypt is symbolic: a hashed password is the term
`Hashed(input, salt, rounds)`. What bcrypt does on a given call (it yields a
salt or an error) is a parameter. These values come from the environment and
are parameters too: the signing secret, the current time, the id a new
document receives, and the id a new toast draws.

Two points about the code shape the model:

- The code has only two route classes. Its matcher "/:path*" covers every
  pathname, and every path except the two public-only ones requires a login;
  no class of paths passes regardless of the session.
- `tests/models/user.test.ts:33` expects the saved password to equal the
  plaintext. That contradicts the pre-save hook, and the model follows the
  hook. No code compares a hash with its plaintext, so the model states
  nothing about that.

The model does not include token issuance, login, logout or the session
cookie writer: no code for them exists in this repository.

## Model

| member | source | states |
|---|---|---|
| Middleware.ValidateJwt | src/middleware.ts:8-16 | fail-closed verification: a payload exactly for a JWT signed with the configured secret whose "exp" claim, when present, is still in the future and whose "nbf" claim, when present, is not, and then that JWT's payload; a foreign signature, an expired or not-yet-valid token or a malformed string all give "no payload" |
| Middleware.SessionPayload | src/middleware.ts:20-27 | a missing or empty cookie never reaches the verifier and gives no payload; otherwise the payload is the verifier's |
| Middleware.Decide | src/middleware.ts:19-40 | a valid session on a public-only path redirects to "/" on the request's origin; no valid session on any other path redirects to "/login" on the request's origin; the request passes through in the two remaining cases; every redirect is same-origin |
| Middleware.Gate | src/middleware.ts:43-45 | paths the matcher covers get the middleware's decision, and any others pass through |
| Middleware.PublicRouteIsExact | src/middleware.ts:5 | a path is public-only iff it is exactly "/login" or "/register"; "/", "/login/" and "/register/x" are not |
| Middleware.MatcherCoversEveryPath | src/middleware.ts:43-45 | the pattern "/:path*" (zero or more non-empty segments, optionally a trailing "/") matches every pathname a parsed URL yields (leading "/", no "?" or "#", no empty segment), so every such request gets the middleware's decision |
| Middleware.DecisionDependsOnTwoFacts | src/middleware.ts:24-39 | two requests from the same origin that agree on session validity and on public-only classification get the same decision |
| Middleware.MissingCookieActsAsInvalidToken | src/middleware.ts:20-27 | an absent cookie and an empty cookie are both decided exactly like a cookie holding a token that does not verify |
| Middleware.ForeignOrExpiredTokenIsRedirected | src/middleware.ts:8-37 | a token signed with another key, an expired one or one not valid yet, on a login-required path, is redirected to "/login" |
| Middleware.TokenWithoutExpiryNeverExpires | src/middleware.ts:8-16 | a correctly signed token with neither an "exp" nor an "nbf" claim verifies at every time |
| Middleware.NoRedirectLoop | src/middleware.ts:24-39 | at one instant, following a redirect to its target with the same cookie passes through: the gate never redirects twice in a row at the same time |
| Middleware.NoRedirectLoopAsTimeAdvances | src/middleware.ts:24-39 | with a clock that does not go back and a cookie without an "nbf" claim, following redirects ends after at most two: the first follow-up passes, or the second one does |
| Middleware.ExpiryBetweenRequestsRedirectsAgain | src/middleware.ts:30-37 | a second redirect does happen when the clock moves: a token valid at 5 that expires at 10 sends "/login" to "/" at 5 and "/" to "/login" at 10 |
| UserModel.Validate | src/models/User.ts:17-22 | a document is accepted iff email, username and password are each set and non-empty, with `name` optional; a rejection lists exactly the missing fields; an accepted document keeps every field |
| UserModel.PreSave | src/models/User.ts:25-38 | an unmodified password leaves the document unchanged; a modified one becomes Hash(password, salt) with cost 10; a bcrypt failure aborts with that error; no field other than the password is ever changed |
| UserModel.Write | src/models/User.ts:18-19 | an insert is refused iff an existing identity shares its id, email or username, and otherwise appends it; an update fails as not found iff no identity has its id, is refused as a duplicate key iff another identity shares its email or username, and otherwise replaces the identity with that id; no other error occurs; a refused write leaves the store unchanged |
| UserModel.Save | src/models/User.ts:17-38 | a save runs validation, then the hook, then the write: an incomplete document fails validation, a bcrypt failure on a modified password aborts, and any failure leaves the store unchanged; a complete document whose hook succeeds is refused as a duplicate key exactly when the hook's output collides on a unique index, and a save fails as not found exactly when it is an update and no identity has its id, and no other error is possible, so such a document with no collision is saved; a saved identity keeps the document's id, email, username and name, keeps an unmodified password and stores Hash(password, salt, 10) for a modified one; it is appended on insert and replaces the identity with its id on update |
| UserModel.SaveNewDocumentSucceeds | src/models/User.ts:17-38 | a new, complete document whose pre-save hook succeeds and that shares no id, email or username with a stored identity is saved: the hook's output is returned and appended to the store |
| UserModel.InsertPreservesUniqueKeys | src/models/User.ts:18-19 | an insert that no unique index refuses keeps ids, emails and usernames pairwise distinct |
| UserModel.UpdatePreservesUniqueKeys | src/models/User.ts:18-19 | an update that no unique index refuses keeps ids, emails and usernames pairwise distinct |
| UserModel.SavePreservesUniqueKeys | src/models/User.ts:18-19 | every state a save produces has no two identities sharing an email or a username |
| UserModel.RenameKeepsPassword | src/models/User.ts:29 | re-saving a stored identity with only its name changed succeeds and leaves the stored password hash identical, whatever bcrypt would do |
| Resolvers.FindOne | src/graphql/resolvers/resolvers.ts:13-23 | a lookup returns a stored identity that matches the filter, and returns null exactly when no stored identity matches |
| Resolvers.Users | src/graphql/resolvers/resolvers.ts:6 | `users` returns every stored identity and nothing else |
| Resolvers.UserById | src/graphql/resolvers/resolvers.ts:9-10 | returns a stored identity with that id, or null exactly when none has it |
| Resolvers.UserByEmail | src/graphql/resolvers/resolvers.ts:13-15 | returns a stored identity with that email, or null exactly when none has it |
| Resolvers.UserByUsername | src/graphql/resolvers/resolvers.ts:18-23 | returns a stored identity with that username, or null exactly when none has it |
| Resolvers.CreateUser | src/graphql/resolvers/resolvers.ts:27-52 | a taken email fails with "Email already registered." even when the username is also taken; else a taken username fails with "Username already registered."; a later failure is the save's; any failure leaves the store unchanged; success appends exactly one identity with the given email and username and the hashed password, and returns it |
| Resolvers.FindOneReturnsTheMatch | src/graphql/resolvers/resolvers.ts:13-23 | in a store with unique keys, a lookup returns the one identity the filter matches |
| Resolvers.LookupsFindTheUniqueUser | src/graphql/resolvers/resolvers.ts:9-23 | in a store with unique keys, each stored identity is what `userById`, `userByEmail` and `userByUsername` return for its own keys |
| Resolvers.CreateUserPreservesUniqueKeys | src/graphql/resolvers/resolvers.ts:49-50 | `createUser` keeps emails and usernames unique, whatever it returns |
| Resolvers.EmailCheckedBeforeUsername | src/graphql/resolvers/resolvers.ts:39-46 | when both the email and the username collide, the email error is reported and nothing changes |
| Resolvers.CreateUserSucceeds | src/graphql/resolvers/resolvers.ts:49-51 | with a fresh id, email and username, non-empty fields and a working bcrypt, the store grows by exactly the returned identity, and each lookup then finds it |
| Resolvers.RepeatedEmailIsRejected | src/graphql/resolvers/resolvers.ts:36-42 | after a successful registration, a second one with the same email fails with the email error and leaves the store as it was |
| ToastStore.CreateToast | src/zustand/toastStore.ts:26-29 | creating a toast appends exactly one toast at the end, with the given id, type, content and optional title; every earlier toast keeps its place |
| ToastStore.DeleteToast | src/zustand/toastStore.ts:40-43 | after deleting an id, a toast is in the queue iff it was there before and has a different id; the length drops by the number of toasts with that id |
| ToastStore.TimerActsAsDelete | src/zustand/toastStore.ts:32-43 | the expiry timer runs exactly the filter `deleteToastElement` runs for the same id |
| ToastStore.CreateWithFreshId | src/zustand/toastStore.ts:26-29 | after creating a toast under a fresh id, exactly one toast carries that id |
| ToastStore.DeleteDistributes | src/zustand/toastStore.ts:40-43 | deleting from a concatenation deletes from each part separately, so the survivors keep their original relative order |
| ToastStore.DeleteAbsentIsIdentity | src/zustand/toastStore.ts:40-43 | deleting an id no toast carries leaves the queue unchanged |
| ToastStore.DeleteIdempotent | src/zustand/toastStore.ts:40-43 | deleting the same id twice gives the same queue as deleting it once |
| ToastStore.ExpiryRemovesOnlyItsToast | src/zustand/toastStore.ts:26-36 | when a toast with a fresh id expires, even after later toasts were added, exactly that toast goes and the rest keep their order |
| ToastStore.CreateThenDeleteRestores | src/zustand/toastStore.ts:26-43 | creating a toast with a fresh id and then deleting that id gives back the original queue |
| UserStore.AddUserDetails | src/zustand/userStore.ts:21-25 | afterwards a user is recorded, with exactly the given id, username, email and optional name |
| UserStore.ClearUserDetails | src/zustand/userStore.ts:26-28 | afterwards no user is recorded |
| UserStore.LastAddWins | src/zustand/userStore.ts:21-25 | what was recorded before `addUserDetails` makes no difference to the state after it |
| UserStore.ClearIsIdempotentAndResets | src/zustand/userStore.ts:20-28 | clearing twice equals clearing once, and adding then clearing returns to the initial state, which has no user |
| ThemeStore.ToggleTheme | src/zustand/theme.ts:15-17 | a toggle flips the dark-mode flag |
| ThemeStore.ToggleTwiceIsIdentity | src/zustand/theme.ts:15-17 | two toggles restore the state |
| ThemeStore.ToggleTimesFlipsOnOdd | src/zustand/theme.ts:15-17 | `n` toggles flip the flag exactly when `n` is odd |
| ThemeStore.DarkAfterOddToggles | src/zustand/theme.ts:12-17 | from the initial light theme, dark mode is on after `n` toggles iff `n` is odd |

## Left out

- JWT cryptography is not modelled. This covers HS256 signing, the encoding of
  the secret, and parsing the token's header and claims. A token is the
  abstract `Token` datatype.
- The signing secret comes from an environment variable. In the model it is a
  plain parameter. What happens when the variable is unset is not modelled.
- bcrypt's salt generation and hashing are not modelled. A hash is the symbolic
  term `Hashed`, and whether bcrypt succeeds on a call is a parameter.
- Middleware.Gate: the pattern is applied to the pathname as given. Next.js's
  own normalisation of repeated slashes before matching is not modelled, so a
  pathname with an empty segment ("//a") is not matched and passes through.
- Middleware.NoRedirectLoopAsTimeAdvances: the bound of two redirects is
  stated only for cookies without an "nbf" claim. A token that becomes valid
  between requests can add a further redirect.
- UserModel.Write: MongoDB reports a duplicate key only as error code 11000.
  The model does not say which index refused the write.
- UserModel.Write: an update in the model replaces the whole stored identity.
  Mongoose instead `$set`s only the modified paths and skips a save that
  modified nothing. The two agree when the document mirrors the stored record.
- Resolvers.UserById: `findById` throws a cast error on a string that is not
  an ObjectId. The model treats ids as plain strings and returns null.
- Resolvers.CreateUser: there is a race between the two pre-checks and the
  save. Operations are sequential in the model, so a concurrent registration
  cannot slip in. The unique indexes still refuse a colliding insert, which
  then surfaces as a save failure.
- MongoDB I/O and the cached connection are not modelled. This is I/O
  plumbing.
- The REST user handler, the GraphQL and Apollo setup, the note model, the
  note resolvers and S3 note creation are not modelled. They are pass-through
  persistence outside this core.
- The older username-only resolver file and its schema are not modelled: the
  GraphQL handler does not use them.
- The current-note store is not modelled. It is a single overwriting setter,
  like `UserStore`.
- Local-storage persistence of the user and theme stores is not modelled
  (both use the key "user-storage"). The same goes for the toast timer's
  5-second delay (the timer's firing is an event) and nanoid's randomness
  (ids are parameters).
- React components, pages and styling are not modelled. Neither are token
  issuance, login, logout and the session cookie writer, which this
  repository does not implement.

=== FILE: middleware.dfy ===
/** The route gate run in front of every page request.

    The request's `token` cookie is verified (fail-closed: every failure is
    "no payload"), the path is classified as public-only ("/login",
    "/register") or login-required (everything else), and the request is
    either passed through or redirected to a same-origin page. JWT
    cryptography is abstracted: a token either is a JWT signed with some key
    and carrying optional "exp" and "nbf" claims, or is any other string. */
module Middleware {
  import opened Wrappers

  type Path = string

  /** The claims a session token carries. */
  datatype Payload = Payload(userId: string, email: string)

  /** The value of the `token` cookie. `Jwt` is a well-formed token signed with
      the key `signedWith`, with its "exp" and "nbf" claims (seconds since the
      epoch) when present; `Garbage` is any string that does not parse as a
      JWT. The empty cookie value is `Garbage("")`. */
  datatype Token =
    | Jwt(payload: Payload, signedWith: string, exp: Option<int>, nbf: Option<int>)
    | Garbage(raw: string)

  /** What the gate reads from a request: the origin of `req.url`, the
      pathname of `req.nextUrl` and the `token` cookie, if any. */
  datatype Request = Request(origin: string, path: Path, cookie: Option<Token>)

  /** An absolute URL, split into origin and pathname. */
  datatype Url = Url(origin: string, path: Path)

  /** `NextResponse.next()` or a redirect (status 307) with a `location`. */
  datatype Response = Next | Redirect(location: Url)

  /** Pages meant only for visitors who are not logged in. */
  const NoLoginRequired: seq<Path> := ["/login", "/register"]

  /** Where a logged-in visitor is sent away from a public-only page. */
  const Home: Path := "/"

  /** Where a visitor without a session is sent. */
  const LoginPage: Path := "/login"

  /** Classification by exact membership in `NoLoginRequired`. */
  predicate IsPublicRoute(path: Path) {
    path in NoLoginRequired
  }

  /** A character a path segment of the matcher may hold. */
  predicate SegmentChar(c: char) {
    c != '/' && c != '#' && c != '?'
  }

  /** The repeated parameter `/:path*`: zero or more segments, each a '/'
      followed by one or more segment characters. */
  predicate RepeatedSegments(s: string)
    decreases |s|
  {
    s == ""
    || (&& s[0] == '/'
        && exists k | 2 <= k <= |s| ::
             (forall i | 1 <= i < k :: SegmentChar(s[i])) && RepeatedSegments(s[k..]))
  }

  /** The matcher "/:path*": the repeated segments, optionally followed by
      one trailing '/'. */
  predicate MatcherCovers(path: Path) {
    RepeatedSegments(path)
    || (|path| > 0 && path[|path| - 1] == '/' && RepeatedSegments(path[..|path| - 1]))
  }

  /** A pathname as a parsed URL yields it: a leading '/', no '?' or '#'
      (they start the query and the fragment), and no empty segment. */
  predicate WellFormedPathname(path: Path) {
    && |path| > 0 && path[0] == '/'
    && (forall i | 0 <= i < |path| :: path[i] != '?' && path[i] != '#')
    && (forall i | 0 <= i < |path| - 1 :: !(path[i] == '/' && path[i + 1] == '/'))
  }

  /** `validateJWT`: the payload of a token signed with `secret` whose "exp"
      claim, if any, lies after `now` and whose "nbf" claim, if any, does not
      lie after `now`; `None` for everything else (a foreign signature, an
      expired or not yet valid token, a string that is no JWT). */
  function ValidateJwt(token: Token, secret: string, now: int): (r: Option<Payload>)
    ensures r.Some? <==> && token.Jwt? && token.signedWith == secret
                         && (token.exp.None? || now < token.exp.value)
                         && (token.nbf.None? || token.nbf.value <= now)
    ensures r.Some? ==> r.value == token.payload
  {
    match token
    case Garbage(_) => None
    case Jwt(payload, key, exp, nbf) =>
      if key != secret then None
      else if nbf.Some? && now < nbf.value then None
      else if exp.Some? && exp.value <= now then None
      else Some(payload)
  }

  /** A cookie is only handed to the verifier when it is present and its value
      is a non-empty string (the middleware tests the value for truthiness). */
  predicate Presented(cookie: Option<Token>) {
    cookie.Some? && cookie.value != Garbage("")
  }

  /** `jwtPayload`: the verified payload of the request's cookie, if any. */
  function SessionPayload(req: Request, secret: string, now: int): (r: Option<Payload>)
    ensures !Presented(req.cookie) ==> r.None?
    ensures Presented(req.cookie) ==> r == ValidateJwt(req.cookie.value, secret, now)
  {
    if Presented(req.cookie) then ValidateJwt(req.cookie.value, secret, now) else None
  }

  /** True when the request carries a session that verifies. */
  predicate Authenticated(req: Request, secret: string, now: int) {
    SessionPayload(req, secret, now).Some?
  }

  /** `middleware`: the pass/redirect decision for one request. */
  function Decide(req: Request, secret: string, now: int): (r: Response)
    ensures r.Redirect? ==> r.location.origin == req.origin
    ensures (r == Redirect(Url(req.origin, "/")))
            <==> Authenticated(req, secret, now) && IsPublicRoute(req.path)
    ensures (r == Redirect(Url(req.origin, "/login")))
            <==> !Authenticated(req, secret, now) && !IsPublicRoute(req.path)
    ensures r == Next <==> (Authenticated(req, secret, now) <==> !IsPublicRoute(req.path))
  {
    var jwtPayload := SessionPayload(req, secret, now);
    var isPublicRoute := IsPublicRoute(req.path);
    if jwtPayload.Some? && isPublicRoute then
      Redirect(Url(req.origin, Home))
    else if jwtPayload.None? && !isPublicRoute then
      Redirect(Url(req.origin, LoginPage))
    else
      Next
  }

  /** The framework's dispatch: paths the matcher does not cover are passed
      through without running the middleware. */
  function Gate(req: Request, secret: string, now: int): (r: Response)
    ensures MatcherCovers(req.path) ==> r == Decide(req, secret, now)
    ensures !MatcherCovers(req.path) ==> r == Next
  {
    if MatcherCovers(req.path) then Decide(req, secret, now) else Next
  }

  /** Public-only classification is exact membership: "/login" and
      "/register" and nothing else, in particular no path that merely starts
      with one of them. */
  lemma PublicRouteIsExact(path: Path)
    ensures IsPublicRoute(path) <==> path == "/login" || path == "/register"
    ensures IsPublicRoute("/login") && IsPublicRoute("/register")
    ensures !IsPublicRoute("/") && !IsPublicRoute("/login/") && !IsPublicRoute("/register/x")
  {
  }

  /** A string that starts with '/', ends in a segment character and has no
      '?', '#' or empty segment is a run of repeated segments. */
  lemma {:induction false} SegmentsOfWellFormed(s: string)
    requires WellFormedPathname(s)
    requires s[|s| - 1] != '/'
    ensures RepeatedSegments(s)
    decreases |s|
  {
    // The first segment runs up to the next '/' or to the end.
    var k := 1;
    while k < |s| && s[k] != '/'
      invariant 1 <= k <= |s|
      invariant forall i | 1 <= i < k :: SegmentChar(s[i])
    {
      k := k + 1;
    }
    assert 2 <= k by {
      assert |s| >= 2;
      assert !(s[0] == '/' && s[1] == '/');
    }
    if k < |s| {
      var rest := s[k..];
      assert rest[|rest| - 1] == s[|s| - 1];
      assert forall i | 0 <= i < |rest| :: rest[i] == s[k + i];
      SegmentsOfWellFormed(rest);
    } else {
      assert s[k..] == "";
    }
  }

  /** The matcher "/:path*" covers every pathname a parsed URL can yield, so
      every such request reaches the middleware. */
  lemma MatcherCoversEveryPath(req: Request, secret: string, now: int)
    requires WellFormedPathname(req.path)
    ensures MatcherCovers(req.path)
    ensures Gate(req, secret, now) == Decide(req, secret, now)
  {
    var p := req.path;
    if p[|p| - 1] == '/' {
      var q := p[..|p| - 1];
      if |q| > 0 {
        assert q[|q| - 1] != '/' by {
          assert p[|p| - 2] != '/';
        }
        assert WellFormedPathname(q) by {
          assert forall i | 0 <= i < |q| :: q[i] == p[i];
        }
        SegmentsOfWellFormed(q);
      }
    } else {
      SegmentsOfWellFormed(p);
    }
  }

  /** The decision depends on two facts only: whether the session verifies
      and whether the path is public-only (plus the origin the redirect is
      built from). */
  lemma DecisionDependsOnTwoFacts(a: Request, b: Request, secret: string, now: int)
    requires a.origin == b.origin
    requires Authenticated(a, secret, now) == Authenticated(b, secret, now)
    requires IsPublicRoute(a.path) == IsPublicRoute(b.path)
    ensures Decide(a, secret, now) == Decide(b, secret, now)
  {
  }

  /** A missing cookie (and an empty one) is treated exactly like a cookie
      holding a token that does not verify. */
  lemma MissingCookieActsAsInvalidToken(req: Request, token: Token, secret: string, now: int)
    requires ValidateJwt(token, secret, now).None?
    ensures Decide(req.(cookie := None), secret, now) == Decide(req.(cookie := Some(token)), secret, now)
    ensures Decide(req.(cookie := Some(Garbage(""))), secret, now) == Decide(req.(cookie := None), secret, now)
  {
  }

  /** A token signed with another key, an expired one, or one not valid yet
      never opens a login-required page. */
  lemma ForeignOrExpiredTokenIsRedirected(req: Request, p: Payload, key: string, exp: Option<int>,
                                          nbf: Option<int>, secret: string, now: int)
    requires key != secret || (exp.Some? && exp.value <= now) || (nbf.Some? && now < nbf.value)
    requires req.cookie == Some(Jwt(p, key, exp, nbf))
    requires !IsPublicRoute(req.path)
    ensures Decide(req, secret, now) == Redirect(Url(req.origin, LoginPage))
  {
  }

  /** A correctly signed token without an "exp" claim or an "nbf" claim
      verifies at every time. */
  lemma TokenWithoutExpiryNeverExpires(p: Payload, secret: string, now: int)
    ensures ValidateJwt(Jwt(p, secret, None, None), secret, now) == Some(p)
  {
  }

  /** No redirect loop at one instant: following a redirect with the same
      cookie, at the same time, to the target on the same origin passes
      through. */
  lemma NoRedirectLoop(req: Request, secret: string, now: int)
    requires Decide(req, secret, now).Redirect?
    ensures var target := Decide(req, secret, now).location;
            Decide(Request(target.origin, target.path, req.cookie), secret, now) == Next
  {
  }

  /** The cookie carries no "nbf" claim, so its validity can only be lost
      as time passes, never gained. */
  predicate NoNotBefore(cookie: Option<Token>) {
    !(cookie.Some? && cookie.value.Jwt? && cookie.value.nbf.Some?)
  }

  /** With a clock that does not go back and a token without an "nbf"
      claim, following redirects with the same cookie ends after at most two
      redirects: the first follow-up passes, or it redirects once more (the
      token expired in between) and the next follow-up passes. */
  lemma NoRedirectLoopAsTimeAdvances(req: Request, secret: string, t1: int, t2: int, t3: int)
    requires t1 <= t2 <= t3
    requires NoNotBefore(req.cookie)
    requires Decide(req, secret, t1).Redirect?
    ensures var first := Decide(req, secret, t1).location;
            var second := Decide(Request(first.origin, first.path, req.cookie), secret, t2);
            || second == Next
            || (&& second.Redirect?
                && Decide(Request(second.location.origin, second.location.path, req.cookie), secret, t3) == Next)
  {
  }

  /** Why the bound above is two and not one: a token valid at time 5 that
      expires at 10 sends "/login" to "/" at 5, and "/" back to "/login" at
      10. */
  lemma ExpiryBetweenRequestsRedirectsAgain()
    ensures var cookie := Some(Jwt(Payload("user", "test@test.com"), "secret", Some(10), None));
            && Decide(Request("http://localhost", "/login", cookie), "secret", 5)
                 == Redirect(Url("http://localhost", "/"))
            && Decide(Request("http://localhost", "/", cookie), "secret", 10)
                 == Redirect(Url("http://localhost", "/login"))
  {
  }
}

=== FILE: resolvers.dfy ===
/** The user resolvers of the query layer: the four lookups and `createUser`,
    which checks the email, then the username, and only then saves a new
    document. */
module Resolvers {
  import opened Wrappers
  import opened UserModel

  /** A lookup filter: `findById`, `findOne({ email })`, `findOne({ username })`. */
  datatype Key = ById(id: Id) | ByEmail(email: string) | ByUsername(username: string)

  predicate Matches(user: Identity, key: Key) {
    match key
    case ById(id) => user.id == id
    case ByEmail(email) => user.email == email
    case ByUsername(username) => user.username == username
  }

  /** Why `createUser` throws. */
  datatype CreateError = EmailTaken | UsernameTaken | SaveFailed(cause: SaveError)

  /** The store after `createUser`, and the user it returned or the error it
      threw. */
  datatype Created = Created(store: seq<Identity>, outcome: Result<Identity, CreateError>)

  /** The message of the two errors the resolver throws itself; a failed
      save propagates the storage layer's own error. */
  function Message(e: CreateError): string
    requires !e.SaveFailed?
  {
    match e
    case EmailTaken => "Email already registered."
    case UsernameTaken => "Username already registered."
  }

  /** The first stored identity the filter matches, or `None` (the resolver's
      `null`) when none does. */
  function FindOne(store: seq<Identity>, key: Key): (r: Option<Identity>)
    ensures r.Some? ==> r.value in store && Matches(r.value, key)
    ensures r.None? <==> forall i | 0 <= i < |store| :: !Matches(store[i], key)
  {
    if |store| == 0 then None
    else if Matches(store[0], key) then Some(store[0])
    else
      var rest := FindOne(store[1..], key);
      assert forall i | 1 <= i < |store| :: store[i] == store[1..][i - 1];
      rest
  }

  /** `users`: every stored identity, in storage order. */
  function Users(store: seq<Identity>): (r: seq<Identity>)
    ensures |r| == |store| && forall u :: u in r <==> u in store
  {
    store
  }

  /** `userById`. */
  function UserById(store: seq<Identity>, id: Id): (r: Option<Identity>)
    ensures r.Some? ==> r.value in store && r.value.id == id
    ensures r.None? <==> forall i | 0 <= i < |store| :: store[i].id != id
  {
    FindOne(store, ById(id))
  }

  /** `userByEmail`. */
  function UserByEmail(store: seq<Identity>, email: string): (r: Option<Identity>)
    ensures r.Some? ==> r.value in store && r.value.email == email
    ensures r.None? <==> forall i | 0 <= i < |store| :: store[i].email != email
  {
    FindOne(store, ByEmail(email))
  }

  /** `userByUsername`. */
  function UserByUsername(store: seq<Identity>, username: string): (r: Option<Identity>)
    ensures r.Some? ==> r.value in store && r.value.username == username
    ensures r.None? <==> forall i | 0 <= i < |store| :: store[i].username != username
  {
    FindOne(store, ByUsername(username))
  }

  /** The document `new User({ email, username, password })` builds: new,
      with a freshly assigned password and no name. */
  function NewUserDoc(id: Id, email: string, username: string, password: string): UserDoc {
    UserDoc(id, Some(email), Some(username), Some(Plain(password)), None, true, true)
  }

  /** `createUser`. The id is the one the document receives on construction
      and `bcrypt` the outcome of hashing; both come from the environment. */
  function CreateUser(store: seq<Identity>, id: Id, email: string, username: string,
                      password: string, bcrypt: BcryptRun): (c: Created)
    ensures c.outcome.Err? ==> c.store == store
    ensures UserByEmail(store, email).Some? ==> c.outcome == Err(EmailTaken)
    ensures UserByEmail(store, email).None? && UserByUsername(store, username).Some? ==>
              c.outcome == Err(UsernameTaken)
    ensures UserByEmail(store, email).None? && UserByUsername(store, username).None? && c.outcome.Err? ==>
              c.outcome.error.SaveFailed?
    ensures c.outcome.Ok? ==>
              && UserByEmail(store, email).None? && UserByUsername(store, username).None?
              && bcrypt.Salted?
              && c.outcome.value == Identity(id, email, username, Hashed(Plain(password), bcrypt.salt, SaltRounds), None)
              && c.store == store + [c.outcome.value]
  {
    var existingUserByEmail := FindOne(store, ByEmail(email));
    var existingUserByUsername := FindOne(store, ByUsername(username));
    if existingUserByEmail.Some? then
      Created(store, Err(EmailTaken))
    else if existingUserByUsername.Some? then
      Created(store, Err(UsernameTaken))
    else
      var saved := Save(store, NewUserDoc(id, email, username, password), bcrypt);
      match saved.outcome
      case Ok(user) => Created(saved.store, Ok(user))
      case Err(e) => Created(saved.store, Err(SaveFailed(e)))
  }

  /** With unique keys, a lookup that a stored identity matches returns that
      identity. */
  lemma {:induction false} FindOneReturnsTheMatch(store: seq<Identity>, user: Identity, key: Key)
    requires UniqueKeys(store)
    requires user in store && Matches(user, key)
    ensures FindOne(store, key) == Some(user)
  {
    if store[0] != user {
      var tail := store[1..];
      assert user in tail;
      assert UniqueKeys(tail) by {
        forall i, j | 0 <= i < j < |tail|
          ensures tail[i].id != tail[j].id && tail[i].email != tail[j].email
                  && tail[i].username != tail[j].username
        {
          assert tail[i] == store[i + 1] && tail[j] == store[j + 1];
        }
      }
      var k :| 1 <= k < |store| && store[k] == user;
      assert !Matches(store[0], key) by {
        assert store[0].id != store[k].id && store[0].email != store[k].email
               && store[0].username != store[k].username;
      }
      FindOneReturnsTheMatch(tail, user, key);
    }
  }

  /** `userByEmail`, `userByUsername` and `userById` return the unique
      identity with that key, and `null` exactly when there is none. */
  lemma LookupsFindTheUniqueUser(store: seq<Identity>, user: Identity)
    requires UniqueKeys(store)
    requires user in store
    ensures UserByEmail(store, user.email) == Some(user)
    ensures UserByUsername(store, user.username) == Some(user)
    ensures UserById(store, user.id) == Some(user)
  {
    FindOneReturnsTheMatch(store, user, ByEmail(user.email));
    FindOneReturnsTheMatch(store, user, ByUsername(user.username));
    FindOneReturnsTheMatch(store, user, ById(user.id));
  }

  /** `createUser` keeps email and username (and id) unique. */
  lemma CreateUserPreservesUniqueKeys(store: seq<Identity>, id: Id, email: string, username: string,
                                      password: string, bcrypt: BcryptRun)
    requires UniqueKeys(store)
    ensures UniqueKeys(CreateUser(store, id, email, username, password, bcrypt).store)
  {
    SavePreservesUniqueKeys(store, NewUserDoc(id, email, username, password), bcrypt);
  }

  /** When the email and the username are both taken, the email error wins,
      because the email is checked first. */
  lemma EmailCheckedBeforeUsername(store: seq<Identity>, a: Identity, b: Identity, id: Id,
                                   password: string, bcrypt: BcryptRun)
    requires a in store && b in store
    ensures CreateUser(store, id, a.email, b.username, password, bcrypt) == Created(store, Err(EmailTaken))
    ensures Message(CreateUser(store, id, a.email, b.username, password, bcrypt).outcome.error)
            == "Email already registered."
  {
    var i :| 0 <= i < |store| && store[i] == a;
    assert !(forall j | 0 <= j < |store| :: store[j].email != a.email);
  }

  /** A registration with a fresh email and username, non-empty fields, a
      fresh id and a working bcrypt succeeds: exactly one identity is added,
      it is returned, and the new user is then found by each key. */
  lemma CreateUserSucceeds(store: seq<Identity>, id: Id, email: string, username: string,
                           password: string, salt: Salt)
    requires UniqueKeys(store)
    requires email != "" && username != "" && password != ""
    requires forall i | 0 <= i < |store| ::
               store[i].id != id && store[i].email != email && store[i].username != username
    ensures var c := CreateUser(store, id, email, username, password, Salted(salt));
            var user := Identity(id, email, username, Hashed(Plain(password), salt, SaltRounds), None);
            && c == Created(store + [user], Ok(user))
            && UserByEmail(c.store, email) == Some(user)
            && UserByUsername(c.store, username) == Some(user)
            && UserById(c.store, id) == Some(user)
  {
    var user := Identity(id, email, username, Hashed(Plain(password), salt, SaltRounds), None);
    var c := CreateUser(store, id, email, username, password, Salted(salt));
    assert !InsertCollides(store, user);
    assert c == Created(store + [user], Ok(user));
    CreateUserPreservesUniqueKeys(store, id, email, username, password, Salted(salt));
    LookupsFindTheUniqueUser(c.store, user);
  }

  /** Registering the same email twice: the second attempt fails with the
      email error and changes nothing. */
  lemma RepeatedEmailIsRejected(store: seq<Identity>, id: Id, email: string, username: string,
                                password: string, salt: Salt, id2: Id, username2: string,
                                password2: string, bcrypt2: BcryptRun)
    requires UniqueKeys(store)
    requires email != "" && username != "" && password != ""
    requires forall i | 0 <= i < |store| ::
               store[i].id != id && store[i].email != email && store[i].username != username
    ensures var first := CreateUser(store, id, email, username, password, Salted(salt));
            CreateUser(first.store, id2, email, username2, password2, bcrypt2)
              == Created(first.store, Err(EmailTaken))
  {
    CreateUserSucceeds(store, id, email, username, password, salt);
  }
}

=== FILE: theme_store.dfy ===
/** The light/dark theme switch. */
module ThemeStore {

  datatype ThemeState = ThemeState(darkMode: bool)

  /** The theme starts light. */
  const InitialTheme: ThemeState := ThemeState(false)

  /** `toggleTheme`. */
  function ToggleTheme(s: ThemeState): (r: ThemeState)
    ensures r.darkMode != s.darkMode
  {
    ThemeState(!s.darkMode)
  }

  /** The state after `n` toggles. */
  function ToggleTimes(s: ThemeState, n: nat): ThemeState {
    if n == 0 then s else ToggleTheme(ToggleTimes(s, n - 1))
  }

  /** Toggling twice is the identity. */
  lemma ToggleTwiceIsIdentity(s: ThemeState)
    ensures ToggleTheme(ToggleTheme(s)) == s
  {
  }

  /** `n` toggles flip the theme exactly when `n` is odd. */
  lemma {:induction false} ToggleTimesFlipsOnOdd(s: ThemeState, n: nat)
    ensures ToggleTimes(s, n).darkMode == (s.darkMode != (n % 2 == 1))
  {
    if n > 0 {
      ToggleTimesFlipsOnOdd(s, n - 1);
    }
  }

  /** From the initial state, dark mode is on after `n` toggles exactly when
      `n` is odd. */
  lemma DarkAfterOddToggles(n: nat)
    ensures ToggleTimes(InitialTheme, n).darkMode <==> n % 2 == 1
  {
    ToggleTimesFlipsOnOdd(InitialTheme, n);
  }
}

=== FILE: toast_store.dfy ===
/** The toast queue: an ordered list of notifications. Creating a toast
    appends it under a fresh id; deleting an id (by a click, or by the timer
    armed when the toast was created) removes every toast with that id. The
    id generator and the timer are the environment's: the id is a parameter
    and the timer's firing is an event. */
module ToastStore {
  import opened Wrappers

  datatype ToastType = Success | Error | Warning

  datatype Toast = Toast(id: string, toastType: ToastType, title: Option<string>, content: string)

  /** Something that changes the queue: a `createToastElement` call with the
      id it draws, a `deleteToastElement` call, or the expiry timer of a
      toast firing (five seconds after its creation; the delay itself is not
      modelled, only the firing). */
  datatype ToastEvent =
    | Created(id: string, toastType: ToastType, content: string, title: Option<string>)
    | DeleteClicked(id: string)
    | TimerFired(id: string)

  /** The queue starts empty. */
  const InitialToasts: seq<Toast> := []

  /** The number of toasts in the queue with this id. */
  function Occurrences(toasts: seq<Toast>, id: string): nat {
    if |toasts| == 0 then 0
    else (if toasts[0].id == id then 1 else 0) + Occurrences(toasts[1..], id)
  }

  predicate Fresh(toasts: seq<Toast>, id: string) {
    forall i | 0 <= i < |toasts| :: toasts[i].id != id
  }

  /** `createToastElement`: the new toast goes at the end and the earlier
      ones stay in order. */
  function CreateToast(toasts: seq<Toast>, id: string, toastType: ToastType, content: string,
                       title: Option<string>): (r: seq<Toast>)
    ensures |r| == |toasts| + 1
    ensures r[..|toasts|] == toasts
    ensures r[|toasts|].id == id && r[|toasts|].toastType == toastType
    ensures r[|toasts|].content == content && r[|toasts|].title == title
  {
    toasts + [Toast(id, toastType, title, content)]
  }

  /** `deleteToastElement`: keep exactly the toasts whose id differs. */
  function DeleteToast(toasts: seq<Toast>, id: string): (r: seq<Toast>)
    ensures forall t :: t in r <==> t in toasts && t.id != id
    ensures |r| == |toasts| - Occurrences(toasts, id)
  {
    if |toasts| == 0 then []
    else (if toasts[0].id == id then [] else [toasts[0]]) + DeleteToast(toasts[1..], id)
  }

  /** The store's reaction to one event. */
  function Apply(toasts: seq<Toast>, e: ToastEvent): seq<Toast> {
    match e
    case Created(id, toastType, content, title) => CreateToast(toasts, id, toastType, content, title)
    case DeleteClicked(id) => DeleteToast(toasts, id)
    case TimerFired(id) => DeleteToast(toasts, id)
  }

  /** The timer armed by a create runs the very filter `deleteToastElement`
      runs for that id. */
  lemma TimerActsAsDelete(toasts: seq<Toast>, id: string)
    ensures Apply(toasts, TimerFired(id)) == Apply(toasts, DeleteClicked(id))
  {
  }

  /** A fresh id occurs exactly once after its toast is created. */
  lemma {:induction false} CreateWithFreshId(toasts: seq<Toast>, id: string, toastType: ToastType,
                                             content: string, title: Option<string>)
    requires Fresh(toasts, id)
    ensures Occurrences(CreateToast(toasts, id, toastType, content, title), id) == 1
  {
    OccurrencesAppend(toasts, [Toast(id, toastType, title, content)], id);
    FreshHasNoOccurrences(toasts, id);
    assert Occurrences([Toast(id, toastType, title, content)], id) == 1;
  }

  lemma {:induction false} FreshHasNoOccurrences(toasts: seq<Toast>, id: string)
    requires Fresh(toasts, id)
    ensures Occurrences(toasts, id) == 0
  {
    if |toasts| > 0 {
      FreshHasNoOccurrences(toasts[1..], id);
    }
  }

  lemma {:induction false} OccurrencesAppend(a: seq<Toast>, b: seq<Toast>, id: string)
    ensures Occurrences(a + b, id) == Occurrences(a, id) + Occurrences(b, id)
  {
    if |a| > 0 {
      assert (a + b)[1..] == a[1..] + b;
      OccurrencesAppend(a[1..], b, id);
    } else {
      assert a + b == b;
    }
  }

  /** Order is kept: deleting from a concatenation deletes from each part,
      so whatever survives from the front still precedes whatever survives
      from the back. */
  lemma {:induction false} DeleteDistributes(a: seq<Toast>, b: seq<Toast>, id: string)
    ensures DeleteToast(a + b, id) == DeleteToast(a, id) + DeleteToast(b, id)
  {
    if |a| == 0 {
      assert a + b == b;
    } else {
      assert (a + b)[0] == a[0];
      assert (a + b)[1..] == a[1..] + b;
      DeleteDistributes(a[1..], b, id);
    }
  }

  /** Deleting an id that no toast carries changes nothing. */
  lemma {:induction false} DeleteAbsentIsIdentity(toasts: seq<Toast>, id: string)
    requires Fresh(toasts, id)
    ensures DeleteToast(toasts, id) == toasts
  {
    if |toasts| > 0 {
      DeleteAbsentIsIdentity(toasts[1..], id);
      assert toasts == [toasts[0]] + toasts[1..];
    }
  }

  /** Deleting twice is deleting once. */
  lemma DeleteIdempotent(toasts: seq<Toast>, id: string)
    ensures DeleteToast(DeleteToast(toasts, id), id) == DeleteToast(toasts, id)
  {
    var r := DeleteToast(toasts, id);
    assert forall i | 0 <= i < |r| :: r[i] in r;
    DeleteAbsentIsIdentity(r, id);
  }

  /** When a toast's timer fires, after any later toasts with other ids were
      created, it removes that toast and only it; everything else stays in
      order. */
  lemma ExpiryRemovesOnlyItsToast(before: seq<Toast>, t: Toast, after: seq<Toast>)
    requires Fresh(before, t.id) && Fresh(after, t.id)
    ensures Apply(before + [t] + after, TimerFired(t.id)) == before + after
  {
    DeleteDistributes(before + [t], after, t.id);
    DeleteDistributes(before, [t], t.id);
    DeleteAbsentIsIdentity(before, t.id);
    DeleteAbsentIsIdentity(after, t.id);
    assert DeleteToast([t], t.id) == [] by {
      assert [t][1..] == [];
    }
    assert DeleteToast(before + [t], t.id) == before;
  }

  /** Creating a toast with a fresh id and then deleting that id restores the
      queue. */
  lemma CreateThenDeleteRestores(toasts: seq<Toast>, id: string, toastType: ToastType,
                                 content: string, title: Option<string>)
    requires Fresh(toasts, id)
    ensures DeleteToast(CreateToast(toasts, id, toastType, content, title), id) == toasts
  {
    ExpiryRemovesOnlyItsToast(toasts, Toast(id, toastType, title, content), []);
    assert toasts + [Toast(id, toastType, title, content)] + [] == CreateToast(toasts, id, toastType, content, title);
    assert toasts + [] == toasts;
  }
}

=== FILE: user_model.dfy ===
/** The `User` document model: the schema's required and unique fields, the
    pre-save hook that hashes a modified password, and the write that the
    storage engine performs under its unique indexes.

    A save runs in this order: the schema's `required` validators, then the
    pre-save hook, then the write, which the unique indexes on `_id`,
    `email` and `username` may reject. bcrypt is symbolic: a hashed password
    is the term `Hashed(input, salt, rounds)`, and the outcome of running
    bcrypt (a salt or an error) is a parameter. */
module UserModel {
  import opened Wrappers

  type Id = string
  type Salt = string

  /** Work factor passed to `bcrypt.genSalt`. */
  const SaltRounds: nat := 10

  /** The value of the password field: the string the caller assigned, or
      bcrypt's output for some earlier value. */
  datatype PasswordValue =
    | Plain(text: string)
    | Hashed(input: PasswordValue, salt: Salt, rounds: nat)

  /** A stored identity: every required field is present. */
  datatype Identity = Identity(
    id: Id,
    email: string,
    username: string,
    password: PasswordValue,
    name: Option<string>)

  /** A document in memory, about to be saved. Any field may be unset;
      `isNew` tells an insert from an update, and `passwordModified` is
      `isModified("password")`. */
  datatype UserDoc = UserDoc(
    id: Id,
    email: Option<string>,
    username: Option<string>,
    password: Option<PasswordValue>,
    name: Option<string>,
    isNew: bool,
    passwordModified: bool)

  /** The schema fields declared `required: true`. */
  datatype Field = EmailField | UsernameField | PasswordField

  /** Why a save is rejected. `DuplicateKey` is the storage engine's error
      with code 11000; `HookError` is the error the hook hands to `next`. */
  datatype SaveError =
    | ValidationError(missing: set<Field>)
    | HookError(reason: string)
    | DuplicateKey
    | DocumentNotFound

  /** What running bcrypt yields: the salt from `genSalt`, or an error thrown
      by `genSalt` or `hash`. */
  datatype BcryptRun = Salted(salt: Salt) | BcryptFailed(reason: string)

  /** The store after a save, and what the save returned or threw. */
  datatype Saved = Saved(store: seq<Identity>, outcome: Result<Identity, SaveError>)

  /** Mongoose's `required` check for a string: set, and not the empty string. */
  predicate RequiredString(v: Option<string>) {
    v.Some? && v.value != ""
  }

  predicate RequiredPassword(v: Option<PasswordValue>) {
    v.Some? && v.value != Plain("")
  }

  /** Every required field is present. */
  predicate Complete(doc: UserDoc) {
    RequiredString(doc.email) && RequiredString(doc.username) && RequiredPassword(doc.password)
  }

  /** In every stored state, no two identities share an id, an email or a
      username. */
  ghost predicate UniqueKeys(store: seq<Identity>) {
    forall i, j | 0 <= i < j < |store| ::
      && store[i].id != store[j].id
      && store[i].email != store[j].email
      && store[i].username != store[j].username
  }

  /** Two identities that the email or username index would refuse to hold
      together. */
  predicate SharesKey(a: Identity, b: Identity) {
    a.email == b.email || a.username == b.username
  }

  /** The schema's validators: a document missing `email`, `username` or
      `password` is rejected, listing every missing field; `name` is
      optional. */
  function Validate(doc: UserDoc): (r: Result<Identity, SaveError>)
    ensures r.Ok? <==> Complete(doc)
    ensures r.Ok? ==> && r.value.id == doc.id
                      && Some(r.value.email) == doc.email
                      && Some(r.value.username) == doc.username
                      && Some(r.value.password) == doc.password
                      && r.value.name == doc.name
    ensures r.Err? ==> r.error.ValidationError? && r.error.missing != {}
    ensures r.Err? ==> (EmailField in r.error.missing <==> !RequiredString(doc.email))
    ensures r.Err? ==> (UsernameField in r.error.missing <==> !RequiredString(doc.username))
    ensures r.Err? ==> (PasswordField in r.error.missing <==> !RequiredPassword(doc.password))
  {
    var missing :=
      (if RequiredString(doc.email) then {} else {EmailField})
      + (if RequiredString(doc.username) then {} else {UsernameField})
      + (if RequiredPassword(doc.password) then {} else {PasswordField});
    if missing == {} then
      Ok(Identity(doc.id, doc.email.value, doc.username.value, doc.password.value, doc.name))
    else
      Err(ValidationError(missing))
  }

  /** The pre-save hook. An unmodified password passes through untouched; a
      modified one is replaced by its salted hash with cost 10; a bcrypt
      failure aborts the save. No other field is ever touched. */
  function PreSave(user: Identity, passwordModified: bool, bcrypt: BcryptRun): (r: Result<Identity, SaveError>)
    ensures !passwordModified ==> r == Ok(user)
    ensures passwordModified && bcrypt.Salted? ==>
              r == Ok(user.(password := Hashed(user.password, bcrypt.salt, SaltRounds)))
    ensures passwordModified && bcrypt.BcryptFailed? ==> r == Err(HookError(bcrypt.reason))
    ensures r.Ok? ==> r.value.(password := user.password) == user
  {
    if !passwordModified then
      Ok(user)
    else
      match bcrypt
      case Salted(salt) => Ok(user.(password := Hashed(user.password, salt, SaltRounds)))
      case BcryptFailed(reason) => Err(HookError(reason))
  }

  /** The position of the identity with this id, the first one if several. */
  function IndexOfId(store: seq<Identity>, id: Id): (r: Option<nat>)
    ensures r.Some? ==> r.value < |store| && store[r.value].id == id
    ensures r.Some? ==> forall i | 0 <= i < r.value :: store[i].id != id
    ensures r.None? ==> forall i | 0 <= i < |store| :: store[i].id != id
  {
    if |store| == 0 then None
    else if store[0].id == id then Some(0)
    else match IndexOfId(store[1..], id)
      case None => None
      case Some(k) => Some(k + 1)
  }

  /** True when some stored identity collides with `user` on a unique index
      (for an insert, `_id` too). */
  predicate InsertCollides(store: seq<Identity>, user: Identity) {
    exists i | 0 <= i < |store| :: store[i].id == user.id || SharesKey(store[i], user)
  }

  /** True when an identity other than the one at position `k` shares an email
      or a username with `user`. */
  predicate UpdateCollides(store: seq<Identity>, k: nat, user: Identity) {
    exists i | 0 <= i < |store| && i != k :: SharesKey(store[i], user)
  }

  /** The storage engine's write: an insert appends, an update replaces the
      identity with the same id; either is refused when a unique index would
      be violated, and an update of an identity no longer stored fails. */
  function Write(store: seq<Identity>, user: Identity, isNew: bool): (s: Saved)
    ensures s.outcome.Err? ==> s.store == store
    ensures s.outcome.Ok? ==> s.outcome.value == user
    ensures isNew && s.outcome.Ok? ==> s.store == store + [user]
    ensures isNew ==> (s.outcome.Err? <==> InsertCollides(store, user))
    ensures isNew && s.outcome.Err? ==> s.outcome.error == DuplicateKey
    ensures !isNew && IndexOfId(store, user.id).Some? ==>
              (s.outcome == Err(DuplicateKey) <==> UpdateCollides(store, IndexOfId(store, user.id).value, user))
    ensures !isNew ==> (s.outcome == Err(DocumentNotFound) <==> forall i | 0 <= i < |store| :: store[i].id != user.id)
    ensures s.outcome.Err? ==> s.outcome.error == DuplicateKey || s.outcome.error == DocumentNotFound
    ensures !isNew && IndexOfId(store, user.id).Some? && !UpdateCollides(store, IndexOfId(store, user.id).value, user) ==>
              s == Saved(store[IndexOfId(store, user.id).value := user], Ok(user))
    ensures !isNew && s.outcome.Ok? ==>
              exists k | 0 <= k < |store| :: store[k].id == user.id && s.store == store[k := user]
  {
    if isNew then
      if InsertCollides(store, user) then Saved(store, Err(DuplicateKey))
      else Saved(store + [user], Ok(user))
    else
      match IndexOfId(store, user.id)
      case None => Saved(store, Err(DocumentNotFound))
      case Some(k) =>
        if UpdateCollides(store, k, user) then Saved(store, Err(DuplicateKey))
        else Saved(store[k := user], Ok(user))
  }

  /** `doc.save()`: validation, then the pre-save hook, then the write. */
  function Save(store: seq<Identity>, doc: UserDoc, bcrypt: BcryptRun): (s: Saved)
    ensures s.outcome.Err? ==> s.store == store
    ensures !Complete(doc) ==> s.outcome.Err? && s.outcome.error.ValidationError?
    ensures Complete(doc) && doc.passwordModified && bcrypt.BcryptFailed? ==>
              s.outcome == Err(HookError(bcrypt.reason))
    ensures s.outcome.Ok? ==> Complete(doc)
    ensures s.outcome.Ok? ==> && s.outcome.value.id == doc.id
                              && Some(s.outcome.value.email) == doc.email
                              && Some(s.outcome.value.username) == doc.username
                              && s.outcome.value.name == doc.name
    ensures s.outcome.Ok? && doc.isNew ==> s.store == store + [s.outcome.value]
    ensures s.outcome.Ok? && !doc.isNew ==>
              exists k | 0 <= k < |store| :: store[k].id == doc.id && s.store == store[k := s.outcome.value]
    ensures Complete(doc) && (!doc.passwordModified || bcrypt.Salted?) ==>
              var hashed := PreSave(Validate(doc).value, doc.passwordModified, bcrypt).value;
              && (doc.isNew ==> (s.outcome == Err(DuplicateKey) <==> InsertCollides(store, hashed)))
              && (!doc.isNew ==> (s.outcome == Err(DocumentNotFound) <==> IndexOfId(store, doc.id).None?))
              && (!doc.isNew && IndexOfId(store, doc.id).Some? ==>
                    (s.outcome == Err(DuplicateKey) <==> UpdateCollides(store, IndexOfId(store, doc.id).value, hashed)))
    ensures s.outcome == Err(DocumentNotFound) ==> !doc.isNew
    ensures Complete(doc) && (!doc.passwordModified || bcrypt.Salted?) && s.outcome.Err? ==>
              s.outcome.error == DuplicateKey || s.outcome.error == DocumentNotFound
    ensures s.outcome.Ok? && !doc.passwordModified ==> Some(s.outcome.value.password) == doc.password
    ensures s.outcome.Ok? && doc.passwordModified ==>
              bcrypt.Salted? && s.outcome.value.password == Hashed(doc.password.value, bcrypt.salt, SaltRounds)
  {
    match Validate(doc)
    case Err(e) => Saved(store, Err(e))
    case Ok(user) =>
      match PreSave(user, doc.passwordModified, bcrypt)
      case Err(e) => Saved(store, Err(e))
      case Ok(hashed) => Write(store, hashed, doc.isNew)
  }

  /** A successful insert keeps the store free of duplicate keys. */
  lemma InsertPreservesUniqueKeys(store: seq<Identity>, user: Identity)
    requires UniqueKeys(store)
    requires !InsertCollides(store, user)
    ensures UniqueKeys(store + [user])
  {
    var s := store + [user];
    forall i, j | 0 <= i < j < |s|
      ensures s[i].id != s[j].id && s[i].email != s[j].email && s[i].username != s[j].username
    {
      if j == |store| {
        assert s[j] == user;
        assert !(store[i].id == user.id || SharesKey(store[i], user));
      }
    }
  }

  /** A successful update keeps the store free of duplicate keys. */
  lemma UpdatePreservesUniqueKeys(store: seq<Identity>, k: nat, user: Identity)
    requires UniqueKeys(store)
    requires k < |store| && store[k].id == user.id
    requires !UpdateCollides(store, k, user)
    ensures UniqueKeys(store[k := user])
  {
    var s := store[k := user];
    forall i, j | 0 <= i < j < |s|
      ensures s[i].id != s[j].id && s[i].email != s[j].email && s[i].username != s[j].username
    {
      if i == k {
        assert !SharesKey(store[j], user);
      } else if j == k {
        assert !SharesKey(store[i], user);
      }
    }
  }

  /** Uniqueness of email and username (and id) holds in every state a save
      can produce. */
  lemma SavePreservesUniqueKeys(store: seq<Identity>, doc: UserDoc, bcrypt: BcryptRun)
    requires UniqueKeys(store)
    ensures UniqueKeys(Save(store, doc, bcrypt).store)
  {
    var s := Save(store, doc, bcrypt);
    if s.outcome.Ok? {
      var user := s.outcome.value;
      if doc.isNew {
        assert !InsertCollides(store, user);
        InsertPreservesUniqueKeys(store, user);
      } else {
        var k := IndexOfId(store, user.id).value;
        assert !UpdateCollides(store, k, user);
        UpdatePreservesUniqueKeys(store, k, user);
      }
    }
  }

  /** A new, complete document whose hook succeeds and that collides with no
      stored identity is saved: it is appended, carrying the hook's output. */
  lemma SaveNewDocumentSucceeds(store: seq<Identity>, doc: UserDoc, bcrypt: BcryptRun)
    requires doc.isNew && Complete(doc)
    requires !doc.passwordModified || bcrypt.Salted?
    requires !InsertCollides(store, PreSave(Validate(doc).value, doc.passwordModified, bcrypt).value)
    ensures var s := Save(store, doc, bcrypt);
            && s.outcome == Ok(PreSave(Validate(doc).value, doc.passwordModified, bcrypt).value)
            && s.store == store + [s.outcome.value]
  {
  }

  /** Re-saving a stored identity after changing only its display name keeps
      the stored password (hash) identical, whatever bcrypt would have done. */
  lemma RenameKeepsPassword(store: seq<Identity>, k: nat, newName: Option<string>, bcrypt: BcryptRun)
    requires UniqueKeys(store)
    requires k < |store|
    requires store[k].email != "" && store[k].username != "" && store[k].password != Plain("")
    ensures var u := store[k];
            var doc := UserDoc(u.id, Some(u.email), Some(u.username), Some(u.password), newName, false, false);
            var s := Save(store, doc, bcrypt);
            s.outcome == Ok(u.(name := newName)) && s.store == store[k := u.(name := newName)]
            && s.store[k].password == u.password
  {
    var u := store[k];
    var renamed := u.(name := newName);
    var idx := IndexOfId(store, u.id);
    assert idx == Some(k);
    assert !UpdateCollides(store, k, renamed) by {
      forall i | 0 <= i < |store| && i != k
        ensures !SharesKey(store[i], renamed)
      {
        if i < k {
          assert store[i].email != store[k].email && store[i].username != store[k].username;
        } else {
          assert store[k].email != store[i].email && store[k].username != store[i].username;
        }
      }
    }
  }
}

=== FILE: user_store.dfy ===
/** The client-side echo of the logged-in user: absent, or the details last
    recorded. */
module UserStore {
  import opened Wrappers

  datatype UserDetails = UserDetails(id: string, username: string, email: string, name: Option<string>)

  datatype UserState = UserState(user: Option<UserDetails>)

  /** No user is recorded at first. */
  const InitialUserState: UserState := UserState(None)

  /** `addUserDetails`: record exactly these details, replacing any earlier
      ones. */
  function AddUserDetails(s: UserState, id: string, username: string, email: string,
                          name: Option<string>): (r: UserState)
    ensures r.user.Some?
    ensures r.user.value.id == id && r.user.value.username == username
    ensures r.user.value.email == email && r.user.value.name == name
  {
    UserState(Some(UserDetails(id, username, email, name)))
  }

  /** `clearUserDetails`: forget the user. */
  function ClearUserDetails(s: UserState): (r: UserState)
    ensures r.user.None?
  {
    UserState(None)
  }

  /** The last `addUserDetails` wins: what was recorded before makes no
      difference. */
  lemma LastAddWins(s: UserState, t: UserState, id: string, username: string, email: string,
                    name: Option<string>)
    ensures AddUserDetails(s, id, username, email, name) == AddUserDetails(t, id, username, email, name)
  {
  }

  /** Clearing twice is clearing once, and adding then clearing returns to
      the initial state. */
  lemma ClearIsIdempotentAndResets(s: UserState, id: string, username: string, email: string,
                                   name: Option<string>)
    ensures ClearUserDetails(ClearUserDetails(s)) == ClearUserDetails(s)
    ensures ClearUserDetails(AddUserDetails(s, id, username, email, name)) == InitialUserState
  {
  }
}

=== FILE: wrappers.dfy ===
/** Failure-compatible wrappers shared by the model: `Option` stands for the
    program's `T | null` values, `Result` for operations that either return a
    value or throw. */
module Wrappers {

  datatype Option<+T> = None | Some(value: T)

  datatype Result<+T, +E> = Ok(value: T) | Err(error: E)
}
